=== FILE: README.md ===
# Restaurant assistant service: orders and chat prompt

A Dafny model of the request handlers of a small restaurant HTTP service
(`server.py`). Three handlers are modelled:

- **POST /order** takes a JSON body with `items` and an optional
  `session_id`. It refuses empty or missing items with an error payload. It
  sums the items' prices, takes the next order number (1000 plus the number
  of stored orders), inserts a `confirmed` row into the `orders` table, whose
  `order_number` column is UNIQUE, and returns a confirmation message.
  Any exception becomes HTTP 500, including a body that is not JSON or
  that holds an integer literal longer than the 4300 digits Python converts.
- **GET /order/{n}** returns the stored number, items, total and status of
  order `n`, or the "Order not found" payload. A number outside SQLite's
  64-bit integers cannot be bound, and the handler answers with its
  "Error retrieving order: …" payload instead.
- **POST /chat** chooses the customer's text (`prompt`, else `message`) and
  refuses when there is none. It builds the menu text from the loaded menu:
  for `starters`, `mains`, `desserts`, `drinks` in that order, each category
  holding a list contributes a title-cased header and its
  `name (description, $price)` entries joined by `"; "`. It asks the language
  model once and returns the stripped answer. Text that is not JSON gives
  400; any other exception, including an integer literal longer than 4300
  digits in the body and a failing model call, gives 500.

Modules, one file each:

- `Values` (`values.dfy`): decoded JSON values, `Result`, and the Python
  exception kinds as `Fault`.
- `Numerals` (`numerals.dfy`): `str(int)` and the whole-number strings
  `float()` reads when written in ASCII digits.
- `Text` (`text.dfy`): `str.strip`, `"; ".join`, ASCII `str.title`, and
  substring occurrence.
- `Menu` (`menu.dfy`): entry and section rendering, the menu text, and the
  handler's `+=` loop as a method.
- `Orders` (`orders.dfy`): the table as the sequence of its rows, numbering,
  insert with the UNIQUE check, create, lookup, and sequences of creates.
- `Chat` (`chat.dfy`): the chat handler.

The language model is a function parameter `complete` that returns the
generated text or the fault it raised. Each chat reply records the prompts
the model was given. `uuid.uuid4()` is a parameter `freshSession`.

Three consequences of the code worth knowing:

- `/order` answers 500 for a body that is not JSON, because its generic
  `except Exception` catches the decoding error. Only `/chat` answers 400.
- An item's entry can occur more than once in the menu text: two items can
  render alike, and one entry can occur inside another. The model proves
  that every item's entry occurs (`Menu.MenuTextListsEveryItem`), not how
  often.
- The `"Restaurant"` fallback in the chat reply can never be used. The prompt
  template indexes `restaurant_name` first, so a menu without it fails with
  500 before the model is asked (`Chat.NamelessMenuFails`).

## Model

| member | source | states |
|---|---|---|
| Numerals.DecimalRoundTrip | server.py:184 | the text `str(n)` gives for any int is canonical and reads back as `n` |
| Numerals.CanonicalRoundTrip | server.py:167 | every canonical numeral that `float()` accepts is read as the number whose `str` it is |
| Text.Strip | server.py:144 | `strip()` returns a slice of its input surrounded only by whitespace, and it neither starts nor ends with whitespace |
| Text.StripIgnoresPadding | server.py:144 | whitespace added on either side of a text never changes what `strip()` returns |
| Text.StripIdempotent | server.py:144 | stripping twice is stripping once |
| Text.JoinContainsParts | server.py:130 | every part handed to `"; ".join` occurs in the joined text |
| Text.TitleOfWord | server.py:128 | `title()` capitalises the first letter of a lower-case category name and leaves the rest unchanged |
| Menu.ItemText | server.py:129 | an entry renders exactly when the item is a dict with name, description and price; it is exactly the name, ` (`, the description, `, $`, the price and `)`; a non-dict item is a TypeError; a missing field is a KeyError naming the first of name, description, price that is missing |
| Menu.ItemTexts | server.py:129 | the comprehension succeeds exactly when every item renders, and then yields one entry per item, in order |
| Menu.ItemTextsFirstFault | server.py:129 | the comprehension raises the fault of the first item that cannot be rendered |
| Menu.RenderItems | server.py:129 | the loop over a category's items computes the same entries, or the same first fault, as the comprehension |
| Menu.BuildMenuText | server.py:125-130 | the handler's `+=` loop over the four categories computes the menu text, or the fault of the first unrenderable item |
| Menu.RenderContainsSections | server.py:126-130 | a successful rendering contains the section of every category it covers |
| Menu.MenuTextListsEveryItem | server.py:126-130 | when the menu text renders, every item of every listed category renders and occurs in it, as does its category's header |
| Menu.MenuTextShowsItemFields | server.py:126-130 | the name, the description and the `$`-price of every item of every listed category all occur in a successful menu text |
| Menu.MenuTextRejectsBadItem | server.py:129 | a single unrenderable item in a listed category makes the menu text fail |
| Menu.MenuTextIgnoresUnlisted | server.py:126-127 | categories that are absent or not lists, and all other keys, never affect the menu text |
| Menu.MenuTextWithoutLists | server.py:125-127 | a menu without any category list has an empty menu text |
| Menu.MenuTextOrder | server.py:126 | the sections appear in the order starters, mains, desserts, drinks, and the earliest fault is the one reported |
| Orders.DenseNumbers | server.py:98-104 | in a table numbered from 1000 by row within 64 bits, the numbers are pairwise distinct and are exactly 1000 up to 1000 plus the row count minus one |
| Orders.NextNumberIsFresh | server.py:98-104 | in such a table the next number is at least 1000 and not yet taken |
| Orders.Insert | server.py:172-175 | the insert succeeds exactly when the order number fits 64 bits, the session id can be bound and the number is not yet stored; it then appends the row; a number too wide is refused before anything else, a taken number by the UNIQUE constraint |
| Orders.SumPricesDefined | server.py:167 | the total is defined exactly when every item's price reads as a number, and it is not negative when no price is |
| Orders.SumPricesAppend | server.py:167 | the total over two lists of items is the sum of their totals |
| Orders.SumPricesFirstFault | server.py:167 | the sum raises the fault of the first item whose price cannot be read, whatever follows it |
| Orders.PricelessItemAddsNothing | server.py:167 | an item without a price counts as 0 wherever it stands |
| Orders.ItemsTotal | server.py:167 | summing the prices fails only with a missing `.get`, a wrong type, an unreadable number or an integer price too large for a double |
| Orders.ConfirmationNamesOrder | server.py:184 | the confirmation message names the order number, which can be read back from it |
| Orders.CreateOrder | server.py:157-188 | a body that is not text, not JSON, or holds an integer literal too long to convert is a 500; empty or missing items are refused with the error payload; any failure is a 500 and leaves the table alone; a success returns the next number, the items, their total and the message, and appends exactly that confirmed row |
| Orders.CreateKeepsDense | server.py:164-177 | against a table numbered from 1000 by row, a create succeeds exactly when the body is a dict with non-empty items whose prices all read, the next number fits 64 bits and the session id can be bound; the numbering stays dense and the UNIQUE constraint never refuses |
| Orders.GetOrder | server.py:190-210 | a number outside 64 bits fails the lookup with a binding error, answered by the retrieval error payload; otherwise the lookup finds nothing exactly when no row has the number, and else shows a row with that number |
| Orders.GetOrderFindsAppended | server.py:195-206 | a row appended with a fresh number is what its number looks up |
| Orders.GetOrderSkipsAppended | server.py:195-206 | appending a row leaves the lookup of every other number as it was |
| Orders.CreateThenGet | server.py:172-206 | the number a successful create returns looks up the items, total and `confirmed` status just stored |
| Orders.CreateKeepsOtherOrders | server.py:172-177 | a create leaves every other number's lookup as it was |
| Orders.GetOrderDense | server.py:190-200 | in a table numbered from 1000 by row, a lookup succeeds exactly for the numbers handed out and finds the row that number was given to; every other number within 64 bits is not found |
| Orders.RecordedTrans | server.py:172-177 | two stretches of creates, one after the other, keep the earlier rows and record the receipts of both, in order |
| Orders.CreateAppends | server.py:172-185 | a create keeps every existing row and appends a row for its own receipt, if it has one |
| Orders.RunRecorded | server.py:157-188 | after any sequence of creates the table keeps its earlier rows and holds one new row per successful create, in order, showing the items and total that create confirmed |
| Orders.RunKeepsDense | server.py:98-104 | sequential creates from a table numbered from 1000 by row keep it so, and never hit the UNIQUE constraint |
| Orders.CreateStep | server.py:168-177 | one create against such a table keeps it numbered so, grows it by one row exactly on success, and hands out the next number |
| Orders.NumberAt | server.py:168 | the k-th successful create of a sequence gets the table's next number plus k |
| Orders.RunNumbering | server.py:98-104 | the successful creates of a sequence get consecutive numbers from the table's next number, and each is stored in the row its number names |
| Orders.SequentialNumbering | server.py:31 | from an empty table the successful creates get 1000, 1001, … in order, all distinct, and the next number is 1000 plus how many succeeded |
| Orders.RecordedLookup | server.py:195-206 | in a table numbered from 1000 by row that holds a stretch of confirmed orders, each numbered next-plus-its-position, every one looks up with the items and total it confirmed |
| Orders.RunThenGet | server.py:190-206 | every order a sequence of creates confirmed looks up afterwards with the items and total it was confirmed with |
| Orders.UnassignedNumberNotFound | server.py:195-200 | a number within 64 bits that was never handed out looks up the "Order not found" payload |
| Orders.TwoDrinksOrder | server.py:157-185 | ordering items priced 1100 and 1300 against an empty table confirms order 1000 with total 2400 and the message "Order #1000 confirmed! Your food will be ready shortly." |
| Chat.ChosenPrompt | server.py:118 | the chosen text is truthy exactly when the prompt or the message is; a truthy prompt wins; otherwise the message (default "") is used |
| Chat.Chat | server.py:114-155 | text that is not JSON gives 400; other failures, a body that is not text or holds an integer literal too long to convert among them, give 500; the refusal payload is returned exactly for a dict without a prompt or message; the model is asked, once, exactly when there is a question, the menu text renders and the menu has a name, with that name, the menu text and the question; a failing model call gives 500 with its fault; otherwise the answer is the model's text stripped |
| Chat.RefusalNeverAsks | server.py:121-122 | without a prompt or message the reply is the refusal payload, whatever the model would say |
| Chat.PromptTakesPrecedence | server.py:118 | whenever the model is asked, a non-empty prompt is the question; the message is the question only when the prompt is empty or absent |
| Chat.AnswerIsStripped | server.py:143-144 | the answer has no surrounding whitespace, and whitespace around the model's text never changes the reply |
| Chat.NamelessMenuFails | server.py:137 | a menu without a restaurant name fails every answerable chat with a KeyError before the model is asked |

## Left out

- The language model (`llm(...)`), its Llama-3 instruction template, sampling settings and the reading of `choices[0].text`. They are the parameter `complete`, which receives the restaurant name, the menu text and the customer's question and returns the text or a fault; what makes the model fail (a prompt beyond its 4096-token context, a malformed output) is its own.
- Chat.Chat: a question or a restaurant name that is a list or a dict reaches the model as the placeholder `[...]` or `{...}`, not as Python's rendering of it.
- FastAPI routing, CORS middleware and `HTTPException` plumbing. Replies are datatypes carrying the status code and fault kind, not the exception message text.
- SQLite itself: opening and closing connections, `init_db`, the `id` column and the `created_at` timestamp. The table is the sequence of its rows.
- Concurrency. Requests are handled one after another. The read-count-then-insert race between concurrent creates is not modelled.
- Loading the menu file and the hard-coded fallback menu. The menu is a parameter, and a menu document that is not a dict is not modelled.
- `uuid.uuid4()`, which is the parameter `freshSession`.
- `json.dumps`/`json.loads` of the items column, taken as an exact round trip. The row keeps the decoded items.
- Floating point. Prices and totals are whole numbers, for example cents, summed exactly: a sum of doubles that rounds, or overflows to `inf`, is not modelled. `float()` of an integer price of magnitude 2^1024 - 2^970 or more raises OverflowError, as in Python. `float()` of a string accepts only an optional sign followed by ASCII digits, and reads them exactly, where Python rounds a long numeral to a double and reads one beyond the double range (`"1"` followed by 400 zeros) as `inf` without an error. With such a price the source commits the row and then cannot serialise the infinite total, answering 500 with the order stored; `Orders.CreateOrder`'s promise that a failure leaves the table alone holds for the whole-number prices modelled here. `str()` of a price is `str(int)`, so the menu shows `12` where Python would show `12.0`.
- Numerals.CanonicalRoundTrip: does not model `float()` of strings with a decimal point, exponent, surrounding whitespace, underscores, `inf` or `nan`, because the model has no floating point; nor of non-ASCII decimal digits (such as `１２`), which Python reads as numbers and the model refuses.
- Orders.Insert: a JSON string holding an unpaired surrogate escape (`"\ud800"`) cannot be written as a Dafny string, so binding one as `session_id`, which raises UnicodeEncodeError and gives a 500, is not modelled.
- Menu.ItemText: `str()` of a list or dict field is a placeholder (`[...]`, `{...}`), not Python's rendering of it.
- Text.TitleOfWord: `title()` is modelled for ASCII letters only; other letters are left unchanged.
- Text.Strip: the whitespace set is that of `str.isspace()` for the code points listed in `Text.IsSpace`; no other Unicode handling is modelled.
- Orders.GetOrder: of the retrieval error payload (`server.py:209-210`) only its fixed beginning is modelled, not the exception's text; failures to open or read the database file are not modelled, so the lookup fails only for a number outside 64 bits.
- Failures to open or write the database file in POST /order; the insert fails only for a value that cannot be bound or a taken number.
- GET / and GET /menu, which return constants.

=== FILE: chat.dfy ===
/** POST /chat: choose the customer's text, refuse when there is none, build
    the menu text, ask the completion model once and return its stripped
    answer. The model is a parameter; the reply records every prompt it was
    given. */
module Chat {
  import opened Values
  import opened Text
  import opened Menu

  const NoPromptError := "No prompt or message provided"

  /** The fallback name in the reply's `restaurant` field. */
  const DefaultRestaurant := "Restaurant"

  /** What the model is asked: the restaurant name, the menu text and the
      customer's words. The fixed Llama-3 instruction template wrapped around
      them belongs to the model parameter. */
  datatype Prompt = Prompt(restaurant: string, menuText: string, question: string)

  /** The outcomes of POST /chat. `Failed` is an HTTP error: 400 for text
      that is not JSON, 500 for any other exception. */
  datatype ChatReply =
    | Answer(response: string, session: Json, restaurant: Json)
    | Refusal(error: string)
    | Failed(status: int, fault: Fault)

  /** A reply and the prompts the model received while producing it. */
  datatype Exchange = Exchange(reply: ChatReply, asked: seq<Prompt>)

  /** `data.get("prompt") or data.get("message", "")`: the prompt when it is
      truthy, the message otherwise. */
  function ChosenPrompt(data: map<string, Json>): (p: Json)
    ensures Truthy(p) <==> Truthy(Get(data, "prompt", JNull)) || Truthy(Get(data, "message", JStr("")))
    ensures Truthy(Get(data, "prompt", JNull)) ==> p == data["prompt"]
    ensures !Truthy(Get(data, "prompt", JNull)) ==> p == Get(data, "message", JStr(""))
  {
    var prompt := Get(data, "prompt", JNull);
    if Truthy(prompt) then prompt else Get(data, "message", JStr(""))
  }

  /** True when the body is a dict carrying a non-empty prompt or message. */
  predicate HasQuestion(body: Body) {
    body.Parsed? && body.json.JObj? && Truthy(ChosenPrompt(body.json.fields))
  }

  /** The model call followed by reading `choices[0].text`: the generated
      text, or the fault the call or the reading raised. */
  type Model = Prompt -> Result<string>

  /** POST /chat against the loaded menu, with `freshSession` standing for
      `str(uuid.uuid4())` and `complete` for the language model. */
  function Chat(body: Body, catalog: Catalog, freshSession: string, complete: Model): (x: Exchange)
    ensures body.Malformed? ==> x.reply == Failed(400, InvalidJson)
    ensures body.NotText? ==> x.reply == Failed(500, Undecodable)
    ensures body.LongInteger? ==> x.reply == Failed(500, IntegerTooLong)
    ensures !body.Malformed? && x.reply.Failed? ==> x.reply.status == 500
    ensures x.reply.Refusal? <==> body.Parsed? && body.json.JObj? && !HasQuestion(body)
    ensures x.reply.Refusal? ==> x.reply.error == NoPromptError
    ensures x.asked != [] <==> HasQuestion(body) && MenuText(catalog).Ok? && "restaurant_name" in catalog
    ensures x.asked != [] ==>
      && |x.asked| == 1
      && x.asked[0] == Prompt(Str(catalog["restaurant_name"]), MenuText(catalog).value, Str(ChosenPrompt(body.json.fields)))
    ensures x.asked != [] && complete(x.asked[0]).Err? ==> x.reply == Failed(500, complete(x.asked[0]).fault)
    ensures x.reply.Answer? <==> x.asked != [] && complete(x.asked[0]).Ok?
    ensures x.reply.Answer? ==>
      && x.reply.response == Strip(complete(x.asked[0]).value)
      && x.reply.session == Get(body.json.fields, "session_id", JStr(freshSession))
      && x.reply.restaurant == catalog["restaurant_name"]
  {
    match body
    case NotText => Exchange(Failed(500, Undecodable), [])
    case LongInteger => Exchange(Failed(500, IntegerTooLong), [])
    case Malformed => Exchange(Failed(400, InvalidJson), [])
    case Parsed(json) =>
      if !json.JObj? then
        Exchange(Failed(500, NoAttribute("get")), [])
      else
        var session := Get(json.fields, "session_id", JStr(freshSession));
        var prompt := ChosenPrompt(json.fields);
        if !Truthy(prompt) then
          Exchange(Refusal(NoPromptError), [])
        else
          match MenuText(catalog)
          case Err(f) => Exchange(Failed(500, f), [])
          case Ok(menuText) =>
            if "restaurant_name" !in catalog then
              Exchange(Failed(500, MissingKey("restaurant_name")), [])
            else
              var question := Prompt(Str(catalog["restaurant_name"]), menuText, Str(prompt));
              match complete(question)
              case Err(f) => Exchange(Failed(500, f), [question])
              case Ok(text) =>
                var response := Strip(text);
                Exchange(Answer(response, session, Get(catalog, "restaurant_name", JStr(DefaultRestaurant))), [question])
  }

  /** Without a prompt or message the reply is the same whatever the model
      would have said: it is never consulted. */
  lemma RefusalNeverAsks(body: Body, catalog: Catalog, freshSession: string, complete: Model, other: Model)
    requires body.Parsed? && body.json.JObj? && !HasQuestion(body)
    ensures Chat(body, catalog, freshSession, complete) == Exchange(Refusal(NoPromptError), [])
    ensures Chat(body, catalog, freshSession, complete) == Chat(body, catalog, freshSession, other)
  {
  }

  /** A non-empty prompt is what the model is asked, whatever the message
      says; the message is asked only when the prompt is empty or absent. */
  lemma PromptTakesPrecedence(data: map<string, Json>, catalog: Catalog, freshSession: string, complete: Model)
    requires Truthy(ChosenPrompt(data)) && MenuText(catalog).Ok? && "restaurant_name" in catalog
    ensures var x := Chat(Parsed(JObj(data)), catalog, freshSession, complete);
      ("prompt" in data && Truthy(data["prompt"]) ==> x.asked[0].question == Str(data["prompt"]))
      && (!("prompt" in data && Truthy(data["prompt"])) ==> "message" in data && x.asked[0].question == Str(data["message"]))
  {
    var x := Chat(Parsed(JObj(data)), catalog, freshSession, complete);
    var chosen := ChosenPrompt(data);
    assert Truthy(chosen) && x.asked[0].question == Str(chosen);
    if !("prompt" in data && Truthy(data["prompt"])) {
      assert chosen == Get(data, "message", JStr(""));
    }
  }

  /** The model's text with `pad` on either side. */
  function Padding(complete: Model, pad: string): Model {
    (q: Prompt) => match complete(q) case Ok(text) => Ok(pad + text + pad) case Err(f) => Err(f)
  }

  /** The answer carries no surrounding whitespace, and padding the model's
      text with whitespace changes nothing. */
  lemma AnswerIsStripped(body: Body, catalog: Catalog, freshSession: string, complete: Model, pad: string)
    requires Chat(body, catalog, freshSession, complete).reply.Answer?
    requires AllSpace(pad)
    ensures var r := Chat(body, catalog, freshSession, complete).reply.response;
      r == [] || (!IsSpace(r[0]) && !IsSpace(r[|r| - 1]))
    ensures Chat(body, catalog, freshSession, complete) == Chat(body, catalog, freshSession, Padding(complete, pad))
  {
    var x := Chat(body, catalog, freshSession, complete);
    StripIgnoresPadding(pad, complete(x.asked[0]).value, pad);
  }

  /** A menu without a restaurant name fails every answerable chat with a
      KeyError before the model is asked, so the reply's "Restaurant"
      fallback is never used. */
  lemma NamelessMenuFails(body: Body, catalog: Catalog, freshSession: string, complete: Model)
    requires HasQuestion(body) && MenuText(catalog).Ok?
    requires "restaurant_name" !in catalog
    ensures Chat(body, catalog, freshSession, complete) == Exchange(Failed(500, MissingKey("restaurant_name")), [])
  {
  }
}

=== FILE: menu.dfy ===
/** The menu text the chat handler embeds in its prompt: the fixed category
    order, one section per category whose value is a list, and one
    `name (description, $price)` entry per item, joined by "; ". */
module Menu {
  import opened Values
  import opened Numerals
  import opened Text

  /** The decoded menu document: restaurant name and the category lists. */
  type Catalog = map<string, Json>

  /** The categories rendered, in the order they are rendered. */
  const Categories: seq<string> := ["starters", "mains", "desserts", "drinks"]

  /** Python's `str(v)` for a decoded JSON value as an f-string shows it.
      Lists and dicts are shown as placeholders. */
  function Str(v: Json): string {
    match v
    case JNull => "None"
    case JBool(b) => if b then "True" else "False"
    case JNum(n) => Decimal(n)
    case JStr(s) => s
    case JArr(_) => "[...]"
    case JObj(_) => "{...}"
  }

  /** The end of an entry: the price after `, $`, and the closing bracket. */
  function PriceTail(price: Json): string {
    ", $" + Str(price) + ")"
  }

  /** `entry` opens with the name and ` (`, closes with the price after
      `, $` and a bracket, and what lies between is exactly the description. */
  predicate ShowsFields(fields: map<string, Json>, entry: string)
    requires "name" in fields && "description" in fields && "price" in fields
  {
    && Str(fields["name"]) + " (" <= entry
    && |Str(fields["name"])| + 2 + |PriceTail(fields["price"])| <= |entry|
    && entry[|Str(fields["name"])| + 2..|entry| - |PriceTail(fields["price"])|] == Str(fields["description"])
    && entry[|entry| - |PriceTail(fields["price"])|..] == PriceTail(fields["price"])
  }

  /** One menu entry, `name (description, $price)`. Indexing a value that is
      not a dict raises TypeError; a missing field raises KeyError, checked
      in the order the f-string reads them. */
  function ItemText(item: Json): (r: Result<string>)
    ensures r.Ok? <==> item.JObj? && "name" in item.fields && "description" in item.fields && "price" in item.fields
    ensures r.Ok? ==> ShowsFields(item.fields, r.value)
    ensures !item.JObj? ==> r == Err(WrongType)
    ensures item.JObj? && "name" !in item.fields ==> r == Err(MissingKey("name"))
    ensures item.JObj? && "name" in item.fields && "description" !in item.fields ==> r == Err(MissingKey("description"))
    ensures item.JObj? && "name" in item.fields && "description" in item.fields && "price" !in item.fields ==>
      r == Err(MissingKey("price"))
  {
    match item
    case JObj(m) =>
      if "name" !in m then Err(MissingKey("name"))
      else if "description" !in m then Err(MissingKey("description"))
      else if "price" !in m then Err(MissingKey("price"))
      else
        var head := Str(m["name"]) + " (";
        var description := Str(m["description"]);
        var entry := head + description + PriceTail(m["price"]);
        Ok(entry)
    case _ => Err(WrongType)
  }

  /** The list comprehension over a category's items: every entry in order,
      or the fault of the first item that cannot be rendered. */
  function ItemTexts(items: seq<Json>): (r: Result<seq<string>>)
    ensures r.Ok? <==> forall i :: 0 <= i < |items| ==> ItemText(items[i]).Ok?
    ensures r.Ok? ==> |r.value| == |items| && forall i :: 0 <= i < |items| ==> ItemText(items[i]) == Ok(r.value[i])
  {
    if items == [] then
      Ok([])
    else
      var tail := items[1..];
      assert forall i :: 0 <= i < |tail| ==> tail[i] == items[i + 1];
      var first :- ItemText(items[0]);
      var rest :- ItemTexts(tail);
      Ok([first] + rest)
  }

  /** The comprehension raises the fault of the first item that fails. */
  lemma {:induction false} ItemTextsFirstFault(items: seq<Json>, j: nat)
    requires j < |items| && ItemText(items[j]).Err?
    requires forall i :: 0 <= i < j ==> ItemText(items[i]).Ok?
    ensures ItemTexts(items) == Err(ItemText(items[j]).fault)
  {
    if j > 0 {
      var rest := items[1..];
      assert rest[j - 1] == items[j];
      forall i | 0 <= i < j - 1
        ensures ItemText(rest[i]).Ok?
      {
        assert rest[i] == items[i + 1];
      }
      ItemTextsFirstFault(rest, j - 1);
      assert ItemText(items[0]).Ok?;
    }
  }

  /** Entries that render one by one make up the comprehension's result. */
  lemma {:induction false} ItemTextsOfParts(items: seq<Json>, parts: seq<string>)
    requires |parts| == |items|
    requires forall i :: 0 <= i < |items| ==> ItemText(items[i]) == Ok(parts[i])
    ensures ItemTexts(items) == Ok(parts)
  {
    if items != [] {
      var rest, more := items[1..], parts[1..];
      forall i | 0 <= i < |rest|
        ensures ItemText(rest[i]) == Ok(more[i])
      {
        assert rest[i] == items[i + 1] && more[i] == parts[i + 1];
      }
      ItemTextsOfParts(rest, more);
      ItemTextsCons(items);
      assert [parts[0]] + more == parts;
    }
  }

  /** The comprehension over a non-empty list: the first entry, then the
      rest. */
  lemma ItemTextsCons(items: seq<Json>)
    requires items != []
    ensures ItemTexts(items) ==
      if ItemText(items[0]).Err? then Err(ItemText(items[0]).fault)
      else if ItemTexts(items[1..]).Err? then Err(ItemTexts(items[1..]).fault)
      else Ok([ItemText(items[0]).value] + ItemTexts(items[1..]).value)
  {
  }

  /** The header that opens a category's section. */
  function Header(category: string): string {
    "\n" + Title(category) + ": "
  }

  /** True when the menu holds a list under `category`. */
  predicate Listed(catalog: Catalog, category: string) {
    category in catalog && catalog[category].JArr?
  }

  /** What one category adds to the menu text: nothing when it is absent or
      not a list, otherwise its header and its entries. */
  function Section(catalog: Catalog, category: string): Result<string> {
    if Listed(catalog, category) then
      var texts :- ItemTexts(catalog[category].elems);
      Ok(Header(category) + Join("; ", texts))
    else
      Ok("")
  }

  /** The sections of `categories`, in order, stopping at the first fault. */
  function Render(catalog: Catalog, categories: seq<string>): Result<string> {
    if categories == [] then
      Ok("")
    else
      var before :- Render(catalog, categories[..|categories| - 1]);
      var last :- Section(catalog, categories[|categories| - 1]);
      Ok(before + last)
  }

  /** The menu text of the chat prompt. */
  function MenuText(catalog: Catalog): Result<string> {
    Render(catalog, Categories)
  }

  /** Once a prefix of the categories fails, the whole rendering fails with
      the same fault. */
  lemma {:induction false} RenderFailureSticks(catalog: Catalog, categories: seq<string>, n: nat)
    requires n <= |categories| && Render(catalog, categories[..n]).Err?
    ensures Render(catalog, categories) == Render(catalog, categories[..n])
    decreases |categories| - n
  {
    if n < |categories| {
      var longer := categories[..n + 1];
      assert longer[..|longer| - 1] == categories[..n];
      RenderFailureSticks(catalog, categories, n + 1);
    } else {
      assert categories[..n] == categories;
    }
  }

  /** The list comprehension as a loop over the items: the entries in
      order, or the fault of the first item that cannot be rendered. */
  method RenderItems(items: seq<Json>) returns (r: Result<seq<string>>)
    ensures r == ItemTexts(items)
  {
    var parts: seq<string> := [];
    var j := 0;
    while j < |items|
      invariant 0 <= j <= |items|
      invariant |parts| == j
      invariant forall i :: 0 <= i < j ==> ItemText(items[i]) == Ok(parts[i])
    {
      var entry := ItemText(items[j]);
      if entry.Err? {
        ItemTextsFirstFault(items, j);
        return Err(entry.fault);
      }
      var longer := parts + [entry.value];
      forall i | 0 <= i <= j
        ensures ItemText(items[i]) == Ok(longer[i])
      {
        if i < j {
          assert longer[i] == parts[i];
        }
      }
      parts, j := longer, j + 1;
    }
    ItemTextsOfParts(items, parts);
    r := Ok(parts);
  }

  /** The loop of the chat handler as written: for each listed category,
      `menu_text +=` its header and then its joined entries. It computes the
      menu text, or the fault of the first unrenderable item. */
  method BuildMenuText(catalog: Catalog) returns (r: Result<string>)
    ensures r == MenuText(catalog)
  {
    var text := "";
    var k := 0;
    while k < |Categories|
      invariant 0 <= k <= |Categories|
      invariant Render(catalog, Categories[..k]) == Ok(text)
    {
      var category := Categories[k];
      RenderPrefixStep(catalog, Categories, k);
      if category in catalog && catalog[category].JArr? {
        ghost var before := text;
        text := text + Header(category);
        var parts := RenderItems(catalog[category].elems);
        if parts.Err? {
          RenderFailureSticks(catalog, Categories, k + 1);
          assert Categories[..|Categories|] == Categories;
          return Err(parts.fault);
        }
        text := text + Join("; ", parts.value);
        assert text == before + (Header(category) + Join("; ", parts.value));
      } else {
        assert text + "" == text;
      }
      k := k + 1;
    }
    assert Categories[..k] == Categories;
    r := Ok(text);
  }

  /** A successful rendering contains every listed category's section. */
  lemma {:induction false} RenderContainsSections(catalog: Catalog, categories: seq<string>, k: nat)
    requires k < |categories| && Render(catalog, categories).Ok?
    ensures Section(catalog, categories[k]).Ok?
    ensures Occurs(Section(catalog, categories[k]).value, Render(catalog, categories).value)
  {
    var init := categories[..|categories| - 1];
    var before := Render(catalog, init);
    var last := Section(catalog, categories[|categories| - 1]);
    if k == |categories| - 1 {
      OccursInSelf(last.value);
      OccursInRight(last.value, before.value, last.value);
    } else {
      assert init[k] == categories[k];
      RenderContainsSections(catalog, init, k);
      OccursInLeft(Section(catalog, categories[k]).value, before.value, last.value);
    }
  }

  /** Every item of every listed category can be rendered and appears in the
      menu text, as does its category's header. */
  lemma MenuTextListsEveryItem(catalog: Catalog, c: nat, k: nat)
    requires c < |Categories| && Listed(catalog, Categories[c])
    requires k < |catalog[Categories[c]].elems|
    requires MenuText(catalog).Ok?
    ensures ItemText(catalog[Categories[c]].elems[k]).Ok?
    ensures Occurs(ItemText(catalog[Categories[c]].elems[k]).value, MenuText(catalog).value)
    ensures Occurs(Header(Categories[c]), MenuText(catalog).value)
  {
    var category := Categories[c];
    var items := catalog[category].elems;
    RenderContainsSections(catalog, Categories, c);
    var texts := ItemTexts(items).value;
    var section := Section(catalog, category).value;
    assert section == Header(category) + Join("; ", texts);
    JoinContainsParts("; ", texts, k);
    OccursInRight(texts[k], Header(category), Join("; ", texts));
    OccursTransitive(texts[k], section, MenuText(catalog).value);
    OccursInSelf(Header(category));
    OccursInLeft(Header(category), Header(category), Join("; ", texts));
    OccursTransitive(Header(category), section, MenuText(catalog).value);
  }

  /** The name, the description and the price of every item of every listed
      category all appear in a successful menu text. */
  lemma MenuTextShowsItemFields(catalog: Catalog, c: nat, k: nat)
    requires c < |Categories| && Listed(catalog, Categories[c])
    requires k < |catalog[Categories[c]].elems|
    requires MenuText(catalog).Ok?
    ensures var item := catalog[Categories[c]].elems[k];
      && item.JObj? && "name" in item.fields && "description" in item.fields && "price" in item.fields
      && Occurs(Str(item.fields["name"]), MenuText(catalog).value)
      && Occurs(Str(item.fields["description"]), MenuText(catalog).value)
      && Occurs(PriceTail(item.fields["price"]), MenuText(catalog).value)
  {
    var item := catalog[Categories[c]].elems[k];
    var text := MenuText(catalog).value;
    MenuTextListsEveryItem(catalog, c, k);
    var entry := ItemText(item).value;
    var name := Str(item.fields["name"]);
    var tail := PriceTail(item.fields["price"]);
    assert name <= entry[0..];
    assert tail <= entry[|entry| - |tail|..];
    assert Str(item.fields["description"]) <= entry[|name| + 2..];
    OccursTransitive(name, entry, text);
    OccursTransitive(Str(item.fields["description"]), entry, text);
    OccursTransitive(tail, entry, text);
  }

  /** An item of a listed category that cannot be rendered fails the menu
      text, and with it the whole chat request. */
  lemma MenuTextRejectsBadItem(catalog: Catalog, c: nat, k: nat)
    requires c < |Categories| && Listed(catalog, Categories[c])
    requires k < |catalog[Categories[c]].elems|
    requires ItemText(catalog[Categories[c]].elems[k]).Err?
    ensures MenuText(catalog).Err?
  {
    if MenuText(catalog).Ok? {
      MenuTextListsEveryItem(catalog, c, k);
    }
  }

  /** Two menus that agree on every section render alike. */
  lemma {:induction false} RenderBySections(a: Catalog, b: Catalog, categories: seq<string>)
    requires forall k :: 0 <= k < |categories| ==> Section(a, categories[k]) == Section(b, categories[k])
    ensures Render(a, categories) == Render(b, categories)
  {
    if categories != [] {
      var init := categories[..|categories| - 1];
      assert forall k :: 0 <= k < |init| ==> init[k] == categories[k];
      RenderBySections(a, b, init);
    }
  }

  /** The part of a menu the text depends on: the four categories, and only
      where they hold lists. */
  function ListedOnly(catalog: Catalog): Catalog {
    map c | c in catalog && c in Categories && catalog[c].JArr? :: catalog[c]
  }

  /** Categories that are absent or not lists, and keys outside the four
      categories (the restaurant name among them), never change the text. */
  lemma MenuTextIgnoresUnlisted(catalog: Catalog)
    ensures MenuText(catalog) == MenuText(ListedOnly(catalog))
  {
    var trimmed := ListedOnly(catalog);
    forall k | 0 <= k < |Categories|
      ensures Section(catalog, Categories[k]) == Section(trimmed, Categories[k])
    {
      var c := Categories[k];
      assert Listed(catalog, c) <==> Listed(trimmed, c);
    }
    RenderBySections(catalog, trimmed, Categories);
  }

  /** A menu with no category list has an empty menu text. */
  lemma {:induction false} RenderWithoutLists(catalog: Catalog, categories: seq<string>)
    requires forall k :: 0 <= k < |categories| ==> !Listed(catalog, categories[k])
    ensures Render(catalog, categories) == Ok("")
  {
    if categories != [] {
      var init := categories[..|categories| - 1];
      assert forall k :: 0 <= k < |init| ==> init[k] == categories[k];
      RenderWithoutLists(catalog, init);
      assert Section(catalog, categories[|categories| - 1]) == Ok("");
      assert "" + "" == "";
    }
  }

  lemma MenuTextWithoutLists(catalog: Catalog)
    requires forall c :: c in catalog && c in Categories ==> !catalog[c].JArr?
    ensures MenuText(catalog) == Ok("")
  {
    RenderWithoutLists(catalog, Categories);
  }

  /** Python's `a + b` on two texts each of which may have raised: the
      first fault wins. */
  function Then(a: Result<string>, b: Result<string>): Result<string> {
    match a
    case Err(f) => Err(f)
    case Ok(x) => match b case Err(g) => Err(g) case Ok(y) => Ok(x + y)
  }

  /** Rendering one more category appends that category's section. */
  lemma RenderSnoc(catalog: Catalog, categories: seq<string>, c: string)
    ensures Render(catalog, categories + [c]) == Then(Render(catalog, categories), Section(catalog, c))
  {
    assert (categories + [c])[..|categories|] == categories;
  }

  lemma RenderPrefixStep(catalog: Catalog, categories: seq<string>, k: nat)
    requires k < |categories|
    ensures Render(catalog, categories[..k + 1]) == Then(Render(catalog, categories[..k]), Section(catalog, categories[k]))
  {
    assert categories[..k] + [categories[k]] == categories[..k + 1];
    RenderSnoc(catalog, categories[..k], categories[k]);
  }

  /** The sections appear in the fixed order starters, mains, desserts,
      drinks, and a fault in an earlier section is the one reported. */
  lemma MenuTextOrder(catalog: Catalog)
    ensures MenuText(catalog) ==
      Then(Then(Then(Section(catalog, "starters"), Section(catalog, "mains")),
                Section(catalog, "desserts")), Section(catalog, "drinks"))
  {
    var cs := Categories;
    assert cs[..3] + [cs[3]] == cs;
    RenderSnoc(catalog, cs[..3], cs[3]);
    assert cs[..2] + [cs[2]] == cs[..3];
    RenderSnoc(catalog, cs[..2], cs[2]);
    assert cs[..1] + [cs[1]] == cs[..2];
    RenderSnoc(catalog, cs[..1], cs[1]);
    assert cs[..0] + [cs[0]] == cs[..1];
    RenderSnoc(catalog, cs[..0], cs[0]);
    var first := Section(catalog, cs[0]);
    assert Then(Ok(""), first) == first by {
      if first.Ok? {
        assert "" + first.value == first.value;
      }
    }
  }
}

=== FILE: numerals.dfy ===
/** Decimal text of whole numbers: Python's `str(n)` for an int, and the
    whole-number strings of ASCII digits that `float(...)` accepts. */
module Numerals {
  import opened Values

  predicate IsDigit(c: char) {
    '0' <= c <= '9'
  }

  predicate AllDigits(s: string) {
    forall i :: 0 <= i < |s| ==> IsDigit(s[i])
  }

  function DigitValue(c: char): nat
    requires IsDigit(c)
  {
    c as int - '0' as int
  }

  function DigitChar(d: nat): (c: char)
    requires d < 10
    ensures IsDigit(c) && DigitValue(c) == d
  {
    ('0' as int + d) as char
  }

  /** The decimal digits of `n`, most significant first. */
  function Digits(n: nat): (s: string)
    ensures |s| > 0 && AllDigits(s)
    ensures s[0] == '0' ==> n == 0
  {
    if n < 10 then [DigitChar(n)] else Digits(n / 10) + [DigitChar(n % 10)]
  }

  /** The number a run of decimal digits denotes. */
  function ValueOf(s: string): nat
    requires AllDigits(s)
  {
    if s == [] then 0 else ValueOf(s[..|s| - 1]) * 10 + DigitValue(s[|s| - 1])
  }

  /** Python's `str(n)` for an int: a minus sign for negatives, then the digits. */
  function Decimal(n: int): string {
    if n < 0 then "-" + Digits(-n) else Digits(n)
  }

  /** The whole numbers `float(s)` reads from a string written in ASCII
      digits: an optional `+` or `-` followed by at least one digit.
      Anything else is refused. */
  function ParseDecimal(s: string): Option<int> {
    if |s| > 1 && (s[0] == '-' || s[0] == '+') && AllDigits(s[1..]) then
      var magnitude: int := ValueOf(s[1..]);
      Some(if s[0] == '-' then -magnitude else magnitude)
    else if |s| > 0 && AllDigits(s) then
      Some(ValueOf(s))
    else
      None
  }

  /** The strings `str(n)` can produce: digits without a leading zero (or a
      lone "0"), with a minus sign only before a non-zero number. */
  predicate Canonical(s: string) {
    if |s| > 0 && s[0] == '-' then
      |s| > 1 && AllDigits(s[1..]) && s[1] != '0'
    else
      |s| > 0 && AllDigits(s) && (s[0] == '0' ==> |s| == 1)
  }

  lemma {:induction false} ValueOfDigits(n: nat)
    ensures ValueOf(Digits(n)) == n
  {
    if n >= 10 {
      var s := Digits(n);
      assert s[..|s| - 1] == Digits(n / 10);
      ValueOfDigits(n / 10);
    }
  }

  lemma {:induction false} ValueOfPositive(s: string)
    requires |s| > 0 && AllDigits(s) && s[0] != '0'
    ensures ValueOf(s) > 0
  {
    if |s| > 1 {
      ValueOfPositive(s[..|s| - 1]);
    }
  }

  lemma {:induction false} DigitsOfValue(s: string)
    requires |s| > 0 && AllDigits(s) && (s[0] == '0' ==> |s| == 1)
    ensures Digits(ValueOf(s)) == s
  {
    var t := s[..|s| - 1];
    if t != [] {
      ValueOfPositive(t);
      DigitsOfValue(t);
      assert t + [s[|s| - 1]] == s;
    }
  }

  /** Reading back the text of any int gives that int. */
  lemma DecimalRoundTrip(n: int)
    ensures Canonical(Decimal(n))
    ensures ParseDecimal(Decimal(n)) == Some(n)
  {
    if n < 0 {
      ValueOfDigits(-n);
      assert Decimal(n)[1..] == Digits(-n);
    } else {
      ValueOfDigits(n);
    }
  }

  /** Every canonical numeral is read as the number whose text it is. */
  lemma CanonicalRoundTrip(s: string)
    requires Canonical(s)
    ensures ParseDecimal(s).Some? && Decimal(ParseDecimal(s).value) == s
  {
    if s[0] == '-' {
      ValueOfPositive(s[1..]);
      DigitsOfValue(s[1..]);
      assert s == "-" + s[1..];
    } else {
      DigitsOfValue(s);
    }
  }
}

=== FILE: orders.dfy ===
/** The order endpoints over the `orders` table, with the table held as the
    sequence of its rows in insertion order and each request handled to
    completion before the next begins. */
module Orders {
  import opened Values
  import opened Numerals

  /** The first order number handed out. */
  const OrderCounterStart := 1000

  /** The status every stored order carries. */
  const Confirmed := "confirmed"

  const NoItemsError := "No items provided"
  const NotFoundError := "Order not found"

  /** The bounds of the integers the SQLite driver can bind. */
  const MinInt64 := -0x8000_0000_0000_0000
  const MaxInt64 := 0x7FFF_FFFF_FFFF_FFFF

  predicate FitsInt64(n: int) {
    MinInt64 <= n <= MaxInt64
  }

  /** 2^1024 - 2^970: an integer this large or larger, in magnitude, rounds
      past the largest double, and `float()` of it raises OverflowError. */
  const FloatLimit := 0xfffffffffffffc00000000000000000000000000000000000000000000000000000000000000000000000000000000000000000000000000000000000000000000000000000000000000000000000000000000000000000000000000000000000000000000000000000000000000000000000000000000000000000000000000

  /** One row of the `orders` table. The `items` column holds the JSON text
      of the submitted items; the row keeps the decoded value it came from. */
  datatype Order = Order(number: int, session: Json, items: Json, total: int, status: string)

  /** The table: its rows in insertion order. */
  type Store = seq<Order>

  /** The number `get_next_order_number` hands out: the start value plus the
      number of rows. */
  function NextOrderNumber(store: Store): int {
    OrderCounterStart + |store|
  }

  predicate HasNumber(store: Store, n: int) {
    exists i :: 0 <= i < |store| && store[i].number == n
  }

  /** The numbering invariant: row `i` carries number `1000 + i`, and every
      number handed out so far fits the column's 64-bit integers. */
  predicate Dense(store: Store) {
    && NextOrderNumber(store) <= MaxInt64 + 1
    && forall i :: 0 <= i < |store| ==> store[i].number == OrderCounterStart + i
  }

  /** In a dense table the numbers are pairwise distinct, and they are
      exactly `1000 .. 1000 + n - 1`. */
  lemma DenseNumbers(store: Store)
    requires Dense(store)
    ensures forall i, j :: 0 <= i < j < |store| ==> store[i].number != store[j].number
    ensures forall n :: HasNumber(store, n) <==> OrderCounterStart <= n < OrderCounterStart + |store|
  {
    forall n | OrderCounterStart <= n < OrderCounterStart + |store|
      ensures HasNumber(store, n)
    {
      assert store[n - OrderCounterStart].number == n;
    }
  }

  /** In a dense table the next number is not yet taken, so the UNIQUE
      column never refuses it. */
  lemma NextNumberIsFresh(store: Store)
    requires Dense(store)
    ensures NextOrderNumber(store) >= OrderCounterStart
    ensures !HasNumber(store, NextOrderNumber(store))
  {
    DenseNumbers(store);
  }

  /** The values the SQLite driver can bind as a parameter: not a list or a
      dict, and no integer wider than 64 bits. */
  predicate Bindable(v: Json) {
    match v
    case JArr(_) => false
    case JObj(_) => false
    case JNum(n) => FitsInt64(n)
    case _ => true
  }

  /** The INSERT: the driver first binds the parameters in order (the order
      number, then the session id; the items text, the total and the status
      always bind), then the UNIQUE constraint on `order_number` is checked;
      on success the row is appended and nothing else changes. */
  function Insert(store: Store, row: Order): (r: Result<Store>)
    ensures r.Ok? <==> FitsInt64(row.number) && Bindable(row.session) && !HasNumber(store, row.number)
    ensures r.Ok? ==> r.value == store + [row]
    ensures !FitsInt64(row.number) ==> r == Err(UnsupportedParameter)
    ensures FitsInt64(row.number) && Bindable(row.session) && HasNumber(store, row.number) ==> r == Err(DuplicateOrderNumber)
  {
    if !FitsInt64(row.number) || !Bindable(row.session) then
      Err(UnsupportedParameter)
    else if HasNumber(store, row.number) then
      Err(DuplicateOrderNumber)
    else
      Ok(store + [row])
  }

  /** Python's `float(v)` on a decoded price, for whole-number values. */
  function Float(v: Json): Result<int> {
    match v
    case JNum(n) => if -FloatLimit < n < FloatLimit then Ok(n) else Err(TooLargeForFloat)
    case JBool(b) => Ok(if b then 1 else 0)
    case JStr(s) => (match ParseDecimal(s) case Some(n) => Ok(n) case None => Err(BadNumber(s)))
    case _ => Err(WrongType)
  }

  /** `float(item.get('price', 0))`: only a dict has `.get`. */
  function PriceOf(item: Json): Result<int> {
    match item
    case JObj(m) => Float(Get(m, "price", JNum(0)))
    case _ => Err(NoAttribute("get"))
  }

  /** `sum(...)` over the prices of a list of items, raising the fault of the
      first item whose price cannot be read. */
  function SumPrices(items: seq<Json>): (r: Result<int>)
    ensures r.Err? ==> r.fault.NoAttribute? || r.fault.WrongType? || r.fault.BadNumber? || r.fault.TooLargeForFloat?
  {
    if items == [] then
      Ok(0)
    else
      var price :- PriceOf(items[0]);
      var rest :- SumPrices(items[1..]);
      Ok(price + rest)
  }

  /** The sum is defined exactly when every item's price reads, and it is
      not negative when no price is. */
  lemma {:induction false} SumPricesDefined(items: seq<Json>)
    ensures SumPrices(items).Ok? <==> forall i :: 0 <= i < |items| ==> PriceOf(items[i]).Ok?
    ensures (forall i :: 0 <= i < |items| ==> PriceOf(items[i]).Ok? && PriceOf(items[i]).value >= 0) ==>
      SumPrices(items).Ok? && SumPrices(items).value >= 0
  {
    if items != [] {
      var rest := items[1..];
      assert forall i :: 0 < i < |items| ==> rest[i - 1] == items[i];
      SumPricesDefined(rest);
    }
  }

  /** The generator raises the fault of the first item whose price cannot
      be read. */
  lemma {:induction false} SumPricesFirstFault(items: seq<Json>, j: nat)
    requires j < |items| && PriceOf(items[j]).Err?
    requires forall i :: 0 <= i < j ==> PriceOf(items[i]).Ok?
    ensures SumPrices(items) == Err(PriceOf(items[j]).fault)
  {
    if j > 0 {
      var rest := items[1..];
      assert rest[j - 1] == items[j];
      forall i | 0 <= i < j - 1
        ensures PriceOf(rest[i]).Ok?
      {
        assert rest[i] == items[i + 1];
      }
      SumPricesFirstFault(rest, j - 1);
      assert PriceOf(items[0]).Ok?;
    }
  }

  /** Prices add up across any split of the item list. */
  lemma {:induction false} SumPricesAppend(a: seq<Json>, b: seq<Json>)
    requires SumPrices(a).Ok? && SumPrices(b).Ok?
    ensures SumPrices(a + b) == Ok(SumPrices(a).value + SumPrices(b).value)
  {
    if a == [] {
      assert a + b == b;
    } else {
      assert (a + b)[1..] == a[1..] + b;
      SumPricesAppend(a[1..], b);
    }
  }

  /** An item without a `price` field counts as 0 wherever it stands. */
  lemma {:induction false} PricelessItemAddsNothing(a: seq<Json>, m: map<string, Json>, b: seq<Json>)
    requires "price" !in m
    ensures SumPrices(a + [JObj(m)] + b) == SumPrices(a + b)
  {
    assert PriceOf(JObj(m)) == Ok(0);
    if a == [] {
      assert a + [JObj(m)] + b == [JObj(m)] + b;
      assert a + b == b;
      SumPricesCons(JObj(m), b);
    } else {
      var rest := a[1..];
      assert a + [JObj(m)] + b == [a[0]] + (rest + [JObj(m)] + b);
      assert a + b == [a[0]] + (rest + b);
      SumPricesCons(a[0], rest + [JObj(m)] + b);
      SumPricesCons(a[0], rest + b);
      PricelessItemAddsNothing(rest, m, b);
    }
  }

  /** The sum over one more item in front: that item's price first, then the
      rest. */
  lemma SumPricesCons(x: Json, xs: seq<Json>)
    ensures SumPrices([x] + xs) ==
      if PriceOf(x).Err? then Err(PriceOf(x).fault)
      else if SumPrices(xs).Err? then Err(SumPrices(xs).fault)
      else Ok(PriceOf(x).value + SumPrices(xs).value)
  {
    var ys := [x] + xs;
    assert ys != [] && ys[0] == x && ys[1..] == xs;
  }

  /** The total of whatever `items` the client sent: a list sums its items'
      prices; iterating a non-empty string or dict yields strings, which have
      no `.get`; null, booleans and numbers cannot be iterated. */
  function ItemsTotal(items: Json): (r: Result<int>)
    ensures r.Err? ==> r.fault.NoAttribute? || r.fault.WrongType? || r.fault.BadNumber? || r.fault.TooLargeForFloat?
  {
    match items
    case JArr(xs) => SumPrices(xs)
    case JStr(s) => if s == [] then Ok(0) else Err(NoAttribute("get"))
    case JObj(m) => if m == map[] then Ok(0) else Err(NoAttribute("get"))
    case _ => Err(WrongType)
  }

  const MessageHead := "Order #"
  const MessageTail := " confirmed! Your food will be ready shortly."

  /** The confirmation text of the create response. */
  function ConfirmationMessage(n: int): string {
    MessageHead + Decimal(n) + MessageTail
  }

  /** Reads the order number back out of a confirmation text. */
  function OrderNumberIn(message: string): Option<int> {
    if |message| >= |MessageHead| + |MessageTail|
       && message[..|MessageHead|] == MessageHead
       && message[|message| - |MessageTail|..] == MessageTail
    then
      ParseDecimal(message[|MessageHead|..|message| - |MessageTail|])
    else
      None
  }

  /** The confirmation names the number it confirms. */
  lemma ConfirmationNamesOrder(n: int)
    ensures OrderNumberIn(ConfirmationMessage(n)) == Some(n)
  {
    var m := ConfirmationMessage(n);
    assert m == MessageHead + Decimal(n) + MessageTail;
    assert m[..|MessageHead|] == MessageHead;
    assert m[|m| - |MessageTail|..] == MessageTail;
    assert m[|MessageHead|..|m| - |MessageTail|] == Decimal(n);
    DecimalRoundTrip(n);
  }

  /** The outcomes of POST /order. `Failed` is the HTTP 500 raised for any
      exception, carrying the fault. */
  datatype OrderReply =
    | Created(number: int, items: Json, total: int, message: string)
    | Rejected(error: string)
    | Failed(status: int, fault: Fault)

  /** A reply together with the table after the request. */
  datatype Step = Step(reply: OrderReply, store: Store)

  /** `data.get("session_id", str(uuid.uuid4()))`, with the fresh identifier
      supplied by the caller. */
  function SessionOf(data: map<string, Json>, freshSession: string): Json {
    Get(data, "session_id", JStr(freshSession))
  }

  /** `data.get("items", [])`. */
  function ItemsOf(data: map<string, Json>): Json {
    Get(data, "items", JArr([]))
  }

  /** True when the body decodes to a dict whose items are empty or missing. */
  predicate NoItems(body: Body) {
    body.Parsed? && body.json.JObj? && !Truthy(ItemsOf(body.json.fields))
  }

  /** POST /order. A body that does not decode (not text, not JSON, or an
      integer literal too long to convert) or is not a dict fails with 500,
      since the handler's `except Exception` catches every such error; empty
      or missing items are refused with an error payload; otherwise the total
      is summed, the next number taken and the row inserted. */
  function CreateOrder(store: Store, body: Body, freshSession: string): (st: Step)
    ensures st.reply.Rejected? <==> NoItems(body)
    ensures st.reply.Rejected? ==> st.reply.error == NoItemsError
    ensures st.reply.Failed? ==> st.reply.status == 500
    ensures !body.Parsed? ==> st.reply.Failed?
    ensures !st.reply.Created? ==> st.store == store
    ensures st.reply.Created? ==>
      && body.Parsed? && body.json.JObj?
      && st.reply.number == OrderCounterStart + |store|
      && st.reply.items == ItemsOf(body.json.fields)
      && ItemsTotal(st.reply.items) == Ok(st.reply.total)
      && st.reply.message == ConfirmationMessage(st.reply.number)
      && st.store == store + [Order(st.reply.number, SessionOf(body.json.fields, freshSession), st.reply.items, st.reply.total, Confirmed)]
  {
    match body
    case NotText => Step(Failed(500, Undecodable), store)
    case LongInteger => Step(Failed(500, IntegerTooLong), store)
    case Malformed => Step(Failed(500, InvalidJson), store)
    case Parsed(json) =>
      if !json.JObj? then
        Step(Failed(500, NoAttribute("get")), store)
      else
        var session := SessionOf(json.fields, freshSession);
        var items := ItemsOf(json.fields);
        if !Truthy(items) then
          Step(Rejected(NoItemsError), store)
        else
          match ItemsTotal(items)
          case Err(f) => Step(Failed(500, f), store)
          case Ok(total) =>
            var n := NextOrderNumber(store);
            match Insert(store, Order(n, session, items, total, Confirmed))
            case Err(f) => Step(Failed(500, f), store)
            case Ok(updated) =>
              Step(Created(n, items, total, ConfirmationMessage(n)), updated)
  }

  /** Against a dense table a create succeeds exactly when the body is a
      dict with non-empty items whose prices all read, the next number fits
      64 bits and the session id can be bound; the numbering stays dense,
      and the UNIQUE constraint is never what refuses it. */
  lemma CreateKeepsDense(store: Store, body: Body, freshSession: string)
    requires Dense(store)
    ensures var st := CreateOrder(store, body, freshSession);
      && Dense(st.store)
      && st.reply != Failed(500, DuplicateOrderNumber)
      && (st.reply.Created? <==>
            && body.Parsed? && body.json.JObj?
            && Truthy(ItemsOf(body.json.fields))
            && ItemsTotal(ItemsOf(body.json.fields)).Ok?
            && FitsInt64(NextOrderNumber(store))
            && Bindable(SessionOf(body.json.fields, freshSession)))
  {
    NextNumberIsFresh(store);
  }

  const RetrieveErrorHead := "Error retrieving order: "

  /** What GET /order/{n} returns: the stored fields, the not-found error
      payload, or the error payload of a lookup that raised. */
  datatype OrderView =
    | Found(number: int, items: Json, total: int, status: string)
    | NotFound
    | LookupFailed(fault: Fault)
  {
    /** The `error` text of a reply without an order. For a lookup that
        raised, the exception's own text follows this beginning. */
    function Error(): string
      requires !Found?
    {
      if NotFound? then NotFoundError else RetrieveErrorHead
    }
  }

  function View(o: Order): OrderView {
    Found(o.number, o.items, o.total, o.status)
  }

  /** GET /order/{n}: the first row carrying that number, if any. Binding a
      number that does not fit 64 bits raises OverflowError, which the
      handler turns into its retrieval error payload. */
  function GetOrder(store: Store, n: int): (r: OrderView)
    ensures r.LookupFailed? <==> !FitsInt64(n)
    ensures r.LookupFailed? ==> r.fault == UnsupportedParameter
    ensures r.NotFound? <==> FitsInt64(n) && !HasNumber(store, n)
    ensures r.Found? ==> r.number == n && exists i :: 0 <= i < |store| && store[i].number == n && View(store[i]) == r
  {
    if !FitsInt64(n) then
      LookupFailed(UnsupportedParameter)
    else if store == [] then
      NotFound
    else if store[0].number == n then
      View(store[0])
    else
      var r := GetOrder(store[1..], n);
      assert forall i :: 0 < i < |store| ==> store[1..][i - 1] == store[i];
      r
  }

  /** A row appended under a number not yet in the table is what a lookup
      of that number finds. */
  lemma {:induction false} GetOrderFindsAppended(store: Store, o: Order)
    requires FitsInt64(o.number) && !HasNumber(store, o.number)
    ensures GetOrder(store + [o], o.number) == View(o)
  {
    if store == [] {
      assert store + [o] == [o];
    } else {
      assert (store + [o])[1..] == store[1..] + [o];
      GetOrderFindsAppended(store[1..], o);
    }
  }

  /** Appending a row never changes what a lookup of another number finds. */
  lemma {:induction false} GetOrderSkipsAppended(store: Store, o: Order, n: int)
    requires n != o.number
    ensures GetOrder(store + [o], n) == GetOrder(store, n)
  {
    if store == [] {
      assert store + [o] == [o];
      assert [o][1..] == [];
    } else {
      assert (store + [o])[1..] == store[1..] + [o];
      GetOrderSkipsAppended(store[1..], o, n);
    }
  }

  /** Round trip: the number a successful create returns looks up the items,
      total and `confirmed` status just stored. */
  lemma CreateThenGet(store: Store, body: Body, freshSession: string)
    requires CreateOrder(store, body, freshSession).reply.Created?
    ensures var st := CreateOrder(store, body, freshSession);
      GetOrder(st.store, st.reply.number) == Found(st.reply.number, st.reply.items, st.reply.total, Confirmed)
  {
    var st := CreateOrder(store, body, freshSession);
    var row := st.store[|store|];
    assert st.store == store + [row];
    assert FitsInt64(row.number) && !HasNumber(store, row.number);
    GetOrderFindsAppended(store, row);
  }

  /** A create leaves every other order's lookup as it was. */
  lemma CreateKeepsOtherOrders(store: Store, body: Body, freshSession: string, n: int)
    requires CreateOrder(store, body, freshSession).reply.Created? ==> n != CreateOrder(store, body, freshSession).reply.number
    ensures GetOrder(CreateOrder(store, body, freshSession).store, n) == GetOrder(store, n)
  {
    var st := CreateOrder(store, body, freshSession);
    if st.reply.Created? {
      GetOrderSkipsAppended(store, st.store[|store|], n);
    }
  }

  /** In a dense table a lookup succeeds exactly for the numbers handed out,
      and finds the row that number was given to; every other number that
      fits 64 bits is not found. */
  lemma GetOrderDense(store: Store, n: int)
    requires Dense(store)
    ensures GetOrder(store, n).Found? <==> OrderCounterStart <= n < OrderCounterStart + |store|
    ensures GetOrder(store, n).NotFound? <==> FitsInt64(n) && !(OrderCounterStart <= n < OrderCounterStart + |store|)
    ensures GetOrder(store, n).Found? ==> GetOrder(store, n) == View(store[n - OrderCounterStart])
  {
    DenseNumbers(store);
  }

  /** One POST /order request: its body and the identifier `uuid4` would
      supply. */
  datatype Request = Request(body: Body, freshSession: string)

  /** The table after a series of requests, and their replies in order. */
  datatype Trace = Trace(store: Store, replies: seq<OrderReply>)

  function Run(store: Store, requests: seq<Request>): Trace
    decreases |requests|
  {
    if requests == [] then
      Trace(store, [])
    else
      var st := CreateOrder(store, requests[0].body, requests[0].freshSession);
      var rest := Run(st.store, requests[1..]);
      Trace(rest.store, [st.reply] + rest.replies)
  }

  /** What a successful create confirmed to the client: its number, the
      items and the total. */
  datatype Receipt = Receipt(number: int, items: Json, total: int)

  /** The receipt a reply carries: one for a successful create, none
      otherwise. */
  function ReceiptOf(reply: OrderReply): seq<Receipt> {
    if reply.Created? then [Receipt(reply.number, reply.items, reply.total)] else []
  }

  /** The successful creates among some replies, in order. */
  function Confirmations(replies: seq<OrderReply>): seq<Receipt> {
    if replies == [] then [] else ReceiptOf(replies[0]) + Confirmations(replies[1..])
  }

  /** What a table holds after some creates: the earlier rows unchanged,
      then one row per receipt, in order, showing what it confirmed. */
  predicate Recorded(before: Store, after: Store, receipts: seq<Receipt>) {
    && |after| == |before| + |receipts|
    && (forall i :: 0 <= i < |before| ==> after[i] == before[i])
    && (forall k :: 0 <= k < |receipts| ==>
          View(after[|before| + k]) == Found(receipts[k].number, receipts[k].items, receipts[k].total, Confirmed))
  }

  /** Two stretches of creates, one after the other, record the receipts of
      both. */
  lemma RecordedTrans(a: Store, b: Store, c: Store, first: seq<Receipt>, second: seq<Receipt>)
    requires Recorded(a, b, first) && Recorded(b, c, second)
    ensures Recorded(a, c, first + second)
  {
    var both := first + second;
    forall k | 0 <= k < |both|
      ensures View(c[|a| + k]) == Found(both[k].number, both[k].items, both[k].total, Confirmed)
    {
      if k < |first| {
        assert both[k] == first[k];
        assert c[|a| + k] == b[|a| + k];
      } else {
        assert both[k] == second[k - |first|];
        assert |a| + k == |b| + (k - |first|);
      }
    }
  }

  /** A create records its own receipt, if any, and leaves the other rows
      alone. */
  lemma CreateAppends(store: Store, body: Body, freshSession: string)
    ensures var st := CreateOrder(store, body, freshSession);
      Recorded(store, st.store, ReceiptOf(st.reply))
  {
  }

  /** After a sequence of creates, the table keeps its earlier rows and holds
      one new row per successful create, in order, with the items and total
      that create confirmed. */
  lemma {:induction false} RunRecorded(store: Store, requests: seq<Request>)
    ensures var t := Run(store, requests); Recorded(store, t.store, Confirmations(t.replies))
    decreases |requests|
  {
    if requests != [] {
      var st := CreateOrder(store, requests[0].body, requests[0].freshSession);
      CreateAppends(store, requests[0].body, requests[0].freshSession);
      var rest := Run(st.store, requests[1..]);
      RunRecorded(st.store, requests[1..]);
      assert Run(store, requests) == Trace(rest.store, [st.reply] + rest.replies);
      ConfirmationsCons(st.reply, rest.replies);
      RecordedTrans(store, st.store, rest.store, ReceiptOf(st.reply), Confirmations(rest.replies));
    }
  }

  /** Sequential creates from a dense table keep it dense and never hit the
      UNIQUE constraint. */
  lemma {:induction false} RunKeepsDense(store: Store, requests: seq<Request>)
    requires Dense(store)
    ensures var t := Run(store, requests);
      && Dense(t.store)
      && (forall k :: 0 <= k < |t.replies| ==> t.replies[k] != Failed(500, DuplicateOrderNumber))
    decreases |requests|
  {
    if requests != [] {
      var st := CreateOrder(store, requests[0].body, requests[0].freshSession);
      CreateStep(store, requests[0].body, requests[0].freshSession);
      var rest := Run(st.store, requests[1..]);
      RunKeepsDense(st.store, requests[1..]);
      assert Run(store, requests).replies == [st.reply] + rest.replies;
    }
  }

  /** The k-th successful create of a sequence from a dense table gets number
      `next + k`. */
  lemma {:induction false} NumberAt(store: Store, requests: seq<Request>, k: nat)
    requires Dense(store)
    requires k < |Confirmations(Run(store, requests).replies)|
    ensures Confirmations(Run(store, requests).replies)[k].number == NextOrderNumber(store) + k
    decreases |requests|
  {
    assert requests != [];
    var st := CreateOrder(store, requests[0].body, requests[0].freshSession);
    CreateStep(store, requests[0].body, requests[0].freshSession);
    var rest := Run(st.store, requests[1..]);
    assert Run(store, requests) == Trace(rest.store, [st.reply] + rest.replies);
    ConfirmationsCons(st.reply, rest.replies);
    var tail := Confirmations(rest.replies);
    if st.reply.Created? {
      var here := Receipt(st.reply.number, st.reply.items, st.reply.total);
      assert Confirmations([st.reply] + rest.replies) == [here] + tail;
      if k > 0 {
        NumberAt(st.store, requests[1..], k - 1);
        assert ([here] + tail)[k] == tail[k - 1];
      }
    } else {
      assert Confirmations([st.reply] + rest.replies) == tail;
      NumberAt(st.store, requests[1..], k);
    }
  }

  /** All successful creates of a sequence, numbered consecutively from the
      table's next number, each stored in the row its number names. */
  lemma RunNumbering(store: Store, requests: seq<Request>)
    requires Dense(store)
    ensures var t := Run(store, requests); var created := Confirmations(t.replies);
      && |t.store| == |store| + |created|
      && (forall k :: 0 <= k < |created| ==>
            && created[k].number == NextOrderNumber(store) + k
            && View(t.store[|store| + k]) == Found(created[k].number, created[k].items, created[k].total, Confirmed))
  {
    RunRecorded(store, requests);
    var t := Run(store, requests);
    var created := Confirmations(t.replies);
    forall k | 0 <= k < |created|
      ensures created[k].number == NextOrderNumber(store) + k
    {
      NumberAt(store, requests, k);
    }
  }

  /** One create against a dense table, as the sequence proofs use it. */
  lemma CreateStep(store: Store, body: Body, freshSession: string)
    requires Dense(store)
    ensures var st := CreateOrder(store, body, freshSession);
      && Dense(st.store)
      && st.reply != Failed(500, DuplicateOrderNumber)
      && |st.store| == |store| + (if st.reply.Created? then 1 else 0)
      && (st.reply.Created? ==> st.reply.number == NextOrderNumber(store))
  {
    CreateKeepsDense(store, body, freshSession);
  }

  lemma ConfirmationsCons(r: OrderReply, rs: seq<OrderReply>)
    ensures Confirmations([r] + rs) == ReceiptOf(r) + Confirmations(rs)
  {
    assert ([r] + rs)[1..] == rs;
  }

  /** From an empty table: after the creates of a session, the successful
      ones got 1000, 1001, ... in order, and the next number is 1000 plus
      how many succeeded. */
  lemma SequentialNumbering(requests: seq<Request>)
    ensures var t := Run([], requests); var created := Confirmations(t.replies);
      && NextOrderNumber(t.store) == OrderCounterStart + |created|
      && (forall k :: 0 <= k < |created| ==> created[k].number == OrderCounterStart + k)
      && (forall j, k :: 0 <= j < k < |created| ==> created[j].number != created[k].number)
  {
    RunNumbering([], requests);
  }

  /** Every order a session confirmed can be looked up afterwards with the
      items and total it was confirmed with. */
  lemma RunThenGet(store: Store, requests: seq<Request>, k: nat)
    requires Dense(store)
    requires k < |Confirmations(Run(store, requests).replies)|
    ensures var t := Run(store, requests); var c := Confirmations(t.replies)[k];
      GetOrder(t.store, c.number) == Found(c.number, c.items, c.total, Confirmed)
  {
    var t := Run(store, requests);
    RunKeepsDense(store, requests);
    RunRecorded(store, requests);
    NumberAt(store, requests, k);
    RecordedLookup(store, t.store, Confirmations(t.replies), k);
  }

  /** In a dense table holding some receipts, the k-th receipt numbered
      `next + k` looks up what it confirmed. */
  lemma RecordedLookup(before: Store, after: Store, receipts: seq<Receipt>, k: nat)
    requires Dense(after) && Recorded(before, after, receipts)
    requires k < |receipts| && receipts[k].number == NextOrderNumber(before) + k
    ensures GetOrder(after, receipts[k].number) == Found(receipts[k].number, receipts[k].items, receipts[k].total, Confirmed)
  {
    GetOrderDense(after, receipts[k].number);
  }

  /** A number that fits 64 bits but was never handed out finds nothing,
      which is told apart from any stored order. */
  lemma UnassignedNumberNotFound(store: Store, n: int)
    requires Dense(store) && FitsInt64(n)
    requires n < OrderCounterStart || n >= NextOrderNumber(store)
    ensures GetOrder(store, n) == NotFound
    ensures GetOrder(store, n).Error() == "Order not found"
  {
    GetOrderDense(store, n);
  }

  /** A Margarita at 11.00 and a Negroni at 13.00, in cents, ordered against
      an empty table. */
  lemma TwoDrinksOrder()
    ensures var items := JArr([JObj(map["name" := JStr("Margarita"), "price" := JNum(1100)]),
                               JObj(map["name" := JStr("Negroni"), "price" := JNum(1300)])]);
      var st := CreateOrder([], Parsed(JObj(map["items" := items])), "session");
      st.reply == Created(1000, items, 2400, MessageHead + "1000" + MessageTail)
  {
    var xs := [JObj(map["name" := JStr("Margarita"), "price" := JNum(1100)]),
               JObj(map["name" := JStr("Negroni"), "price" := JNum(1300)])];
    assert SumPrices(xs) == Ok(2400);
    assert Digits(1000) == "1000";
  }
}

=== FILE: text.dfy ===
/** The string operations the handlers use: `str.strip()`, `sep.join(...)`,
    `str.title()`, and substring occurrence for stating what a text contains. */
module Text {

  /** Python's `str.isspace()` for one character: the code points `strip()`
      removes when called without arguments. */
  predicate IsSpace(c: char) {
    var u := c as int;
    || 9 <= u <= 13
    || 28 <= u <= 32
    || u == 0x85 || u == 0xA0 || u == 0x1680
    || 0x2000 <= u <= 0x200A
    || u == 0x2028 || u == 0x2029 || u == 0x202F || u == 0x205F || u == 0x3000
  }

  predicate AllSpace(s: string) {
    forall i :: 0 <= i < |s| ==> IsSpace(s[i])
  }

  lemma AllSpaceConcat(a: string, b: string)
    requires AllSpace(a) && AllSpace(b)
    ensures AllSpace(a + b)
  {
    forall i | 0 <= i < |a + b|
      ensures IsSpace((a + b)[i])
    {
      if i < |a| {
        assert (a + b)[i] == a[i];
      } else {
        assert (a + b)[i] == b[i - |a|];
      }
    }
  }

  /** A leading space followed by a trimmed tail: the tail is a suffix of the
      whole, and all that precedes it is whitespace. */
  lemma TrimStartStep(s: string, r: string)
    requires s != [] && IsSpace(s[0])
    requires |r| <= |s| - 1 && r == s[1..][|s| - 1 - |r|..] && AllSpace(s[1..][..|s| - 1 - |r|])
    ensures r == s[|s| - |r|..] && AllSpace(s[..|s| - |r|])
  {
    assert s[..|s| - |r|] == [s[0]] + s[1..][..|s| - 1 - |r|];
    AllSpaceConcat([s[0]], s[1..][..|s| - 1 - |r|]);
    assert s[1..][|s| - 1 - |r|..] == s[|s| - |r|..];
  }

  /** A trailing space preceded by a trimmed head: the head is a prefix of
      the whole, and all that follows it is whitespace. */
  lemma TrimEndStep(s: string, r: string)
    requires s != [] && IsSpace(s[|s| - 1])
    requires |r| <= |s| - 1 && r == s[..|s| - 1][..|r|] && AllSpace(s[..|s| - 1][|r|..])
    ensures r == s[..|r|] && AllSpace(s[|r|..])
  {
    assert s[|r|..] == s[..|s| - 1][|r|..] + [s[|s| - 1]];
    AllSpaceConcat(s[..|s| - 1][|r|..], [s[|s| - 1]]);
    assert s[..|s| - 1][..|r|] == s[..|r|];
  }

  /** `s.lstrip()`: the suffix left after dropping leading whitespace. */
  function TrimStart(s: string): (r: string)
    ensures |r| <= |s| && r == s[|s| - |r|..]
    ensures AllSpace(s[..|s| - |r|])
    ensures r == [] || !IsSpace(r[0])
  {
    if s != [] && IsSpace(s[0]) then
      var r := TrimStart(s[1..]);
      TrimStartStep(s, r);
      r
    else
      s
  }

  /** `s.rstrip()`: the prefix left after dropping trailing whitespace. */
  function TrimEnd(s: string): (r: string)
    ensures |r| <= |s| && r == s[..|r|]
    ensures AllSpace(s[|r|..])
    ensures r == [] || !IsSpace(r[|r| - 1])
  {
    if s != [] && IsSpace(s[|s| - 1]) then
      var r := TrimEnd(s[..|s| - 1]);
      TrimEndStep(s, r);
      r
    else
      s
  }

  /** `s` is `r` with nothing but whitespace before and after it. */
  predicate Padded(s: string, r: string) {
    exists i :: 0 <= i <= |s| - |r| && r == s[i..i + |r|] && AllSpace(s[..i]) && AllSpace(s[i + |r|..])
  }

  /** `s.strip()`: the longest slice of `s` that neither starts nor ends with
      whitespace, all of whose surroundings are whitespace. */
  function Strip(s: string): (r: string)
    ensures Padded(s, r)
    ensures r == [] || (!IsSpace(r[0]) && !IsSpace(r[|r| - 1]))
  {
    var t := TrimStart(s);
    var r := TrimEnd(t);
    StripShape(s, t, r);
    r
  }

  /** Dropping whitespace from the front of `s` and then from the back of
      what is left cuts out a slice surrounded by whitespace. */
  lemma StripShape(s: string, t: string, r: string)
    requires |t| <= |s| && t == s[|s| - |t|..] && AllSpace(s[..|s| - |t|])
    requires |r| <= |t| && r == t[..|r|] && AllSpace(t[|r|..])
    ensures Padded(s, r)
  {
    var i := |s| - |t|;
    assert s[i..i + |r|] == t[..|r|];
    assert s[i + |r|..] == t[|r|..];
    assert r == s[i..i + |r|] && AllSpace(s[..i]) && AllSpace(s[i + |r|..]);
  }

  lemma {:induction false} TrimStartSkipsSpace(p: string, s: string)
    requires AllSpace(p)
    ensures TrimStart(p + s) == TrimStart(s)
  {
    if p != [] {
      assert (p + s)[0] == p[0] && IsSpace(p[0]);
      assert (p + s)[1..] == p[1..] + s;
      assert TrimStart(p + s) == TrimStart(p[1..] + s);
      assert AllSpace(p[1..]);
      TrimStartSkipsSpace(p[1..], s);
    } else {
      assert p + s == s;
    }
  }

  lemma {:induction false} TrimEndSkipsSpace(s: string, q: string)
    requires AllSpace(q)
    ensures TrimEnd(s + q) == TrimEnd(s)
  {
    if q != [] {
      assert (s + q)[|s + q| - 1] == q[|q| - 1] && IsSpace(q[|q| - 1]);
      assert (s + q)[..|s + q| - 1] == s + q[..|q| - 1];
      assert TrimEnd(s + q) == TrimEnd(s + q[..|q| - 1]);
      assert AllSpace(q[..|q| - 1]);
      TrimEndSkipsSpace(s, q[..|q| - 1]);
    } else {
      assert s + q == s;
    }
  }

  lemma {:induction false} TrimStartAppend(s: string, q: string)
    requires !AllSpace(s)
    ensures TrimStart(s + q) == TrimStart(s) + q
  {
    if IsSpace(s[0]) {
      assert (s + q)[1..] == s[1..] + q;
      assert !AllSpace(s[1..]) by {
        var k :| 0 <= k < |s| && !IsSpace(s[k]);
        assert s[1..][k - 1] == s[k];
      }
      TrimStartAppend(s[1..], q);
    }
  }

  lemma TrimStartAllSpace(s: string)
    requires AllSpace(s)
    ensures TrimStart(s) == []
  {
  }

  /** Whitespace around a text never changes what `strip()` returns. */
  lemma StripIgnoresPadding(p: string, s: string, q: string)
    requires AllSpace(p) && AllSpace(q)
    ensures Strip(p + s + q) == Strip(s)
  {
    assert p + s + q == p + (s + q);
    TrimStartSkipsSpace(p, s + q);
    if AllSpace(s) {
      assert AllSpace(s + q);
      TrimStartAllSpace(s + q);
      TrimStartAllSpace(s);
    } else {
      TrimStartAppend(s, q);
      TrimEndSkipsSpace(TrimStart(s), q);
    }
  }

  /** Stripping twice is stripping once. */
  lemma StripIdempotent(s: string)
    ensures Strip(Strip(s)) == Strip(s)
  {
  }

  /** `sep.join(xs)`. */
  function Join(sep: string, xs: seq<string>): string {
    if |xs| == 0 then "" else if |xs| == 1 then xs[0] else xs[0] + sep + Join(sep, xs[1..])
  }

  /** `t` occurs in `s` as a contiguous piece. */
  predicate Occurs(t: string, s: string) {
    exists i :: 0 <= i <= |s| && t <= s[i..]
  }

  lemma OccursInSelf(t: string)
    ensures Occurs(t, t)
  {
    assert t <= t[0..];
  }

  lemma OccursInLeft(t: string, a: string, b: string)
    requires Occurs(t, a)
    ensures Occurs(t, a + b)
  {
    var i :| 0 <= i <= |a| && t <= a[i..];
    assert t <= (a + b)[i..];
  }

  lemma OccursInRight(t: string, a: string, b: string)
    requires Occurs(t, b)
    ensures Occurs(t, a + b)
  {
    var i :| 0 <= i <= |b| && t <= b[i..];
    assert (a + b)[|a| + i..] == b[i..];
  }

  /** A piece of a piece of `c` is a piece of `c`. */
  lemma OccursTransitive(a: string, b: string, c: string)
    requires Occurs(a, b) && Occurs(b, c)
    ensures Occurs(a, c)
  {
    var i :| 0 <= i <= |b| && a <= b[i..];
    var j :| 0 <= j <= |c| && b <= c[j..];
    assert c[j + i..][..|a|] == b[i..][..|a|];
    assert a <= c[j + i..];
  }

  /** Every part handed to `join` appears in the joined text. */
  lemma {:induction false} JoinContainsParts(sep: string, xs: seq<string>, k: nat)
    requires k < |xs|
    ensures Occurs(xs[k], Join(sep, xs))
  {
    if |xs| == 1 {
      OccursInSelf(xs[0]);
    } else if k == 0 {
      OccursInSelf(xs[0]);
      OccursInLeft(xs[0], xs[0], sep + Join(sep, xs[1..]));
      assert xs[0] + sep + Join(sep, xs[1..]) == xs[0] + (sep + Join(sep, xs[1..]));
    } else {
      JoinContainsParts(sep, xs[1..], k - 1);
      OccursInRight(xs[k], xs[0] + sep, Join(sep, xs[1..]));
    }
  }

  predicate IsLower(c: char) {
    'a' <= c <= 'z'
  }

  predicate IsUpper(c: char) {
    'A' <= c <= 'Z'
  }

  predicate IsLetter(c: char) {
    IsLower(c) || IsUpper(c)
  }

  /** One character of `str.title()`: upper case after a non-letter, lower
      case after a letter. */
  function TitleChar(c: char, afterLetter: bool): char {
    if IsLower(c) && !afterLetter then (c as int - 32) as char
    else if IsUpper(c) && afterLetter then (c as int + 32) as char
    else c
  }

  /** `str.title()` on ASCII text: each letter is upper-cased when it follows
      a non-letter (or starts the text) and lower-cased when it follows a
      letter. */
  function Title(s: string): (r: string)
    ensures |r| == |s|
  {
    seq(|s|, i requires 0 <= i < |s| => TitleChar(s[i], i > 0 && IsLetter(s[i - 1])))
  }

  /** A lower-case word comes out with its first letter capitalised and the
      rest as it was. */
  lemma TitleOfWord(s: string)
    requires |s| > 0 && IsLower(s[0]) && forall i :: 0 < i < |s| ==> IsLower(s[i])
    ensures Title(s) == [(s[0] as int - 32) as char] + s[1..]
  {
    var r := Title(s);
    forall i | 0 <= i < |s|
      ensures r[i] == ([(s[0] as int - 32) as char] + s[1..])[i]
    {
      if i > 0 {
        assert IsLetter(s[i - 1]);
      }
    }
  }
}

=== FILE: values.dfy ===
/** Values exchanged by the restaurant service: decoded JSON request bodies,
    the Python exceptions a handler can raise, and failure-compatible results. */
module Values {

  datatype Option<+T> = None | Some(value: T)

  /** The exceptions a handler can run into, named by what Python signals. */
  datatype Fault =
    | InvalidJson                  // json.JSONDecodeError while decoding the request body
    | Undecodable                  // UnicodeDecodeError: body bytes that are not text in the encoding JSON detects
    | IntegerTooLong               // ValueError: an integer literal beyond Python's 4300-digit conversion limit
    | NoAttribute(name: string)    // AttributeError: `.get` on a value that is not a dict
    | MissingKey(key: string)      // KeyError: `d[key]` on a dict without that key
    | WrongType                    // TypeError: indexing, iterating or converting the wrong kind of value
    | BadNumber(text: string)      // ValueError: float() of a string that is not a number
    | TooLargeForFloat             // OverflowError: float() of an integer beyond the largest double
    | UnsupportedParameter         // the SQLite driver cannot bind a list, a dict or a too-wide integer
    | DuplicateOrderNumber         // IntegrityError from the UNIQUE order_number column
    | ModelError                   // any exception from the language-model call or from reading its output

  /** A Python computation that either returns a value or raises. */
  datatype Result<+T> = Ok(value: T) | Err(fault: Fault) {
    predicate IsFailure() {
      Err?
    }

    function PropagateFailure<U>(): Result<U>
      requires Err?
    {
      Err(fault)
    }

    function Extract(): T
      requires Ok?
    {
      value
    }
  }

  /** A decoded JSON document. Numbers are whole numbers (prices in cents) of
      at most 4300 digits: a body with a longer integer literal does not
      decode (`Body.LongInteger`). */
  datatype Json =
    | JNull
    | JBool(b: bool)
    | JNum(n: int)
    | JStr(s: string)
    | JArr(elems: seq<Json>)
    | JObj(fields: map<string, Json>)

  /** A request body: bytes that are not text, text that is not JSON, JSON
      holding an integer literal too long for Python to convert, or a
      decoded JSON document. */
  datatype Body = NotText | Malformed | LongInteger | Parsed(json: Json)

  /** Python truthiness of a decoded JSON value (`if not v`, `a or b`). */
  predicate Truthy(v: Json) {
    match v
    case JNull => false
    case JBool(b) => b
    case JNum(n) => n != 0
    case JStr(s) => s != []
    case JArr(a) => a != []
    case JObj(m) => m != map[]
  }

  /** `d.get(key, default)` on a dict. */
  function Get(d: map<string, Json>, key: string, default: Json): Json {
    if key in d then d[key] else default
  }
}
